=== FILE: README.md ===
# IMDb Tomatoes: cache and rating bookkeeping in Dafny

The IMDb Tomatoes userscript adds a Rotten Tomatoes widget to IMDb title
pages. It caches one record per IMDb id in the extension host's key-value
storage. Each record is `{ expires, version, data | error }`, stamped with a
version tag and an expiry time. Every visit to a movie page the widget can
be added to sweeps out invalid and expired records. On a miss the script
queries a rating API, falls back to bundled OMDb data, normalises the result,
and stores the result or the error for one day or one week.

This project models that bookkeeping as pure functions over immutable values:

- `Version`: how `DATA_VERSION` is built from the schema number and the
  script's SemVer version. For three-part `<major>.<minor>.<patch>` versions
  it shows that a patch release keeps the cache while any other release
  invalidates it. A two-part version loses its minor number instead.
- `Cache`: the storage as a `map<string, Record>`. It holds the sweep
  `purgeCached` (as a map function and as the key-by-key loop the script
  runs), the "clear cache" command, and `store`.
- `Ratings`: the normalised `{ consensus, rating, url }` record, and how
  `affixRT` turns a rating into a status, a CSS style and a score text.
- `Tomatoes`: `adaptOmdbData` and `getRTData`. These cover choosing the
  result, the fallback and the error, and normalising rating and consensus.
- `Query`: `encodeParam` and `encodeParams`.
- `Visit`: the cache flow of `main`. It sweeps, serves a hit, or stores the
  query outcome with its time-to-live.
- `Strings` and `Wrappers`: the JavaScript string operations the script
  relies on. These are number rendering, global literal replacement and
  `join`. The number rendering is proved against its inverse
  (`ParseInteger`). `join` is proved against `SplitOn` and `Cut`, which the
  script never calls: they serve only `Query.ParseQuery`, a reference reader
  of the query string. The `%20` to `+` rewrite is proved reversible when the
  encoded text has no `+`.

The host's storage, the clock (`NOW`), the network, JSON parsing, `parseInt`,
`encodeURIComponent` and the scraped Rotten Tomatoes page are all inputs: the
storage as a map value passed in and returned, and the rest as parameters
(functions or datatype values).

Two details of the sweep decide which records are kept:
- A record whose expiry equals the sweep time is kept, because only
  `date > expires` deletes.
- Persistent records (`expires === -1`) are checked only against the numeric
  schema version, so they survive even the "clear cache" sweep.

## Model

| member | source | states |
|---|---|---|
| Cache.Purge | src/imdb_tomatoes.user.js:134-153 | The sweep only deletes keys and never changes a kept record. A persistent record is kept iff its version is the number `SCHEMA_VERSION`. A non-persistent record whose version is not `DATA_VERSION` is always deleted. A current-version record is kept iff the date is not -1, its expiry is a number and the date is not after it. |
| Cache.PurgeCached | src/imdb_tomatoes.user.js:135-153 | Walking the listed keys, reading each one's current value and deleting the purgeable ones yields exactly the declarative sweep. No kept value changes. |
| Cache.ClearCache | src/imdb_tomatoes.user.js:513 | The "clear cache" command (`purgeCached(-1)`) keeps exactly the persistent records of the current schema and deletes everything else. |
| Cache.PurgeIdempotent | src/imdb_tomatoes.user.js:135-153 | A second sweep with the same date removes nothing more. |
| Cache.PurgeMonotone | src/imdb_tomatoes.user.js:148 | A sweep at a later date keeps a subset of what an earlier real-date sweep keeps. |
| Cache.FreshRecord | src/imdb_tomatoes.user.js:446-450 | A stored record carries the string `DATA_VERSION`, is not persistent, and is unexpired at exactly the dates up to `NOW + ttl`. |
| Cache.Store | src/imdb_tomatoes.user.js:446-455 | `store` adds or overwrites the single key `imdbId` with the fresh record. Every other key keeps its value. |
| Cache.StoredRecordLifetime | src/imdb_tomatoes.user.js:446-455 | A record stored at a real time with a non-negative ttl survives every sweep up to `NOW + ttl`, body intact, and no sweep after it. |
| Version.StripPatchMatchesRegex | src/imdb_tomatoes.user.js:76 | `StripPatch`, the model of `replace(/\.\d+$/, '')`, keeps only the text before the index where the regex matches (a dot followed by one or more digits up to the end). It leaves a version with no such match unchanged. |
| Version.StripPatchOfRelease | src/imdb_tomatoes.user.js:68-76 | `StripPatch` cuts a version `<prefix>.<digits>` back to `<prefix>`. |
| Version.DataVersionValue | src/imdb_tomatoes.user.js:68-76 | Schema 4 and script version 2.15.3 give the tag `4/2.15`. |
| Version.PatchReleasesShareTag | src/imdb_tomatoes.user.js:68-74 | `VersionTag`, the model of the `DATA_VERSION` expression, gives releases that differ only in the patch number the same tag: a patch release does not invalidate the cache. |
| Version.MinorReleasesDiffer | src/imdb_tomatoes.user.js:68-74 | `VersionTag` gives releases with different `<major>.<minor>` parts and a numeric patch part different tags, so their records are purged. |
| Version.TwoPartVersionsLoseMinor | src/imdb_tomatoes.user.js:68-76 | On a two-part script version the regex strips the minor number: `2.16` and `2.17` both give the tag `4/2`. So the rule in the comment, that a minor change invalidates the cache, holds only for three-part versions such as `2.15.3`. |
| Version.SchemaChangeChangesTag | src/imdb_tomatoes.user.js:68-76 | `VersionTag` values built with different schema versions never coincide, whatever the script versions. |
| Strings.NatToString | src/imdb_tomatoes.user.js:76 | Rendering the schema number gives a non-empty digit string with no leading zero. |
| Strings.NatToStringRoundTrip | src/imdb_tomatoes.user.js:76 | Reading the rendered digits back gives the number, so the rendering is injective. |
| Strings.IntToString | src/imdb_tomatoes.user.js:222 | A rating interpolated into the widget is in JavaScript's canonical form. It starts with a minus sign iff the rating is negative, and otherwise with a digit. It has no leading zero after the sign, unless it is `0` itself. It parses back to the same integer. |
| Strings.ReplaceAllRemoves | src/imdb_tomatoes.user.js:370 | After `ReplaceAll`, the model of a global replacement of a literal pattern, by text sharing none of the pattern's characters, the pattern occurs nowhere in the result. |
| Strings.ReplaceAllInverse | src/imdb_tomatoes.user.js:97-99 | Replacing every occurrence of a pattern by a single character absent from the text is undone by replacing that character back by the pattern. |
| Strings.ReplaceAllChangesIff | src/imdb_tomatoes.user.js:370 | `ReplaceAll` changes the text iff the pattern occurs in it. |
| Strings.SplitJoin | src/imdb_tomatoes.user.js:111 | `SplitOn`, a reference reader the script does not call, gives back the parts of `join(sep)` output when no part contains the separator. |
| Ratings.StatusOf | src/imdb_tomatoes.user.js:160-168 | The status is N/A iff the rating is -1, Rotten iff the rating is not -1 and below 60, and Fresh iff the rating is 60 or more. |
| Ratings.StyleOfRating | src/imdb_tomatoes.user.js:160-170 | The CSS style is `tbd`, `unfavorable` or `favorable` under exactly those conditions, and no two statuses share a style. |
| Ratings.ScoreText | src/imdb_tomatoes.user.js:222-243 | The score shown is "N/A" iff the rating is -1. Otherwise the review bar shows the rating as a canonical decimal (`IntToString`: a minus sign iff negative, no leading zero), which parses back to the rating. The star box shows that text followed by `%`. |
| Tomatoes.FindFirst | src/imdb_tomatoes.user.js:319 | `find` returns the index of an element that satisfies the predicate, with none before it, or nothing when no element does. |
| Tomatoes.AdaptOmdbData | src/imdb_tomatoes.user.js:281-291 | The adapted record takes the rating (`CriticRating`: the integer `parseInt` reads from a non-empty `Value`, else null) and the consensus from the first "Rotten Tomatoes" entry, or null and none when there is no such entry. Its rating is never undefined. Its URL is `tomatoURL`. |
| Tomatoes.SelectMovie | src/imdb_tomatoes.user.js:310-328 | A falsy response fails with "no response" and a non-array with "invalid response". Otherwise the result is the first entry with the requested id if there is one, then the adapted fallback, then the "no results found" error. |
| Tomatoes.NormaliseRating | src/imdb_tomatoes.user.js:366-368 | A null or undefined rating becomes -1, and a number is kept. |
| Tomatoes.NormaliseConsensus | src/imdb_tomatoes.user.js:370 | The consensus is never empty and never contains `--`. A missing or empty consensus becomes "No consensus yet.". A consensus without `--` is kept verbatim. |
| Tomatoes.Finish | src/imdb_tomatoes.user.js:330-372 | It fails iff the movie has a URL and fetching or scraping the page failed. `updated` holds iff the page's rating differs from the movie's. With a URL, the data takes the page's consensus (when found) and rating. Without one, the URL becomes a title search. |
| Tomatoes.GetRTData | src/imdb_tomatoes.user.js:297-373 | An unparseable, falsy or non-array response fails. No match and no fallback gives "no results found". Any success has a non-empty consensus free of `--`. |
| Tomatoes.GetRTDataUsesFirstMatch | src/imdb_tomatoes.user.js:319-328 | When some result has the requested id, the outcome is computed from the first such result. |
| Tomatoes.GetRTDataFallsBack | src/imdb_tomatoes.user.js:321-324 | With no result for the id and a fallback record, the outcome is computed from the adapted fallback. |
| Query.EncodeParam | src/imdb_tomatoes.user.js:97-99 | The encoded parameter contains no `%20`. Each of its characters is a `+` or comes from the percent-encoding. It equals the percent-encoding iff that had no `%20`. When the percent-encoding has no `+`, writing each `+` back as `%20` gives exactly the percent-encoding. |
| Query.EncodeParamUrlSafe | src/imdb_tomatoes.user.js:97-99 | The space rewrite introduces no `&` or `=`. |
| Query.EncodeParamsRoundTrip | src/imdb_tomatoes.user.js:104-112 | Splitting the `EncodeParams` query string on `&`, then cutting at the first `=`, gives back exactly the encoded `(key, value)` pairs in entry order. |
| Visit.Ttl | src/imdb_tomatoes.user.js:475-487 | The ttl is one day iff the outcome is an error or an updated rating, and one week iff it is a rating that was not updated. |
| Visit.ShowCached | src/imdb_tomatoes.user.js:426-440 | A surviving record shows its error iff the error message is non-empty, and shows its rating iff it holds data, with the message or data unchanged. It shows nothing iff it is an error with an empty message. A cached record never shows as freshly fetched. |
| Visit.Visit | src/imdb_tomatoes.user.js:422-489 | A visit writes only `imdbId` and keeps every other key iff the sweep keeps it. A surviving record is served unchanged. Otherwise the outcome is stored as a fresh record with its ttl and shown. |
| Visit.StoredOutcomeIsServed | src/imdb_tomatoes.user.js:422-455 | After a miss, every later visit up to the record's expiry is served from the cache without a new query. It shows the stored rating, or the stored non-empty error. |
| Visit.ExpiredOutcomeIsRefetched | src/imdb_tomatoes.user.js:422-487 | After the expiry, the stored record is swept and the next visit stores its own new outcome. |

## Left out

- Host storage, network and menu calls (`GM_getValue`, `GM_setValue`, `GM_deleteValue`, `GM_listValues`, `GM_xmlhttpRequest`, `get`, `GM_getResourceText`, `GM_registerMenuCommand`, `GM_addStyle`): the storage is a map value passed in and returned, and fetched data are parameters.
- JSON serialisation of records: the model stores record values directly, so `JSON.stringify`/`JSON.parse` round trips are not modelled.
- A stored value that is not valid JSON, or is JSON `null`, makes `purgeCached` throw part-way through the key list (`value.expires` of `null`). The model assumes records of the shape `store` writes. A non-null value of another shape is covered: its missing `expires` and `version` are `JsOther`, so it is deleted as an obsolete version.
- Visit.Visit: one visit is one atomic step. In the script, `main` awaits the API request (src/imdb_tomatoes.user.js:464) and the page fetch (line 338) between `purgeCached(NOW)` (line 422) and `store` (line 454). The "clear cache" menu command (line 513), or the same script in another tab, can run during those waits. A record fetched while the cache was being cleared is still stored afterwards. No sequence of `Visit` and `ClearCache` calls yields that state. Also, `main` parses the bundled `query` resource and assigns its `params` (lines 457-459) before the `try` at line 461. If that resource is not valid JSON or has no `params`, `main` rejects and stores nothing, so no error record is cached and every later visit fails the same way. The model stores a record on every miss and has no outcome for this path.
- Visit.ShowCached: a cached error with an empty message is falsy, so the script passes the record's missing `data` to `affixRT`, whose destructuring throws a `TypeError`. The model shows nothing (`CachedUnreadable`) instead of modelling the exception.
- Cache.PurgeCached: requires `GM_listValues` to list each key once. A repeated key whose first occurrence was deleted would make the script read the deleted value and throw. A repeated key whose record was kept is read again harmlessly.
- Timestamps and ratings are integers. JSON numbers with a fraction are not modelled: `Date.now()` and Tomatometer scores are integers.
- Non-numeric ratings (for example a string `ratingValue` on the page) and a non-string consensus, which makes `.replace` throw, are not modelled.
- API result entries that are not objects (a `null` entry makes `find` throw) are not modelled.
- `JSON.parse(JSON.parse(response))`, `parseInt`, `encodeURIComponent` and the trimming of the scraped consensus HTML are parameters or given inputs, not modelled in detail.
- The DOM work is not modelled. This covers `affixRT`'s HTML templates, review-bar hoisting and balloon tooltip, `prop`, `$.fn.jsonLd`, the `DOMParser` scrape, and `main`'s page-type, id, movie-type and target checks, which return before any cache access.
- `Object.entries` ordering rules: the parameters are given as an ordered sequence of string pairs, with numbers (such as `yearMax`) already converted to strings.
- Error messages come as given strings, including `error.message || String(error)`. A failure of `affixRT` after `store`, which would overwrite the stored rating with an error, is not modelled.
- `Date.now()`, `toLocaleString` and `getFullYear` are wall-clock values: `NOW` is a parameter and the year is not used.
- The other two scripts in the repository are left out. The YouTube sidebar script only hides DOM nodes. The Reddit script is a configuration call into an external highlighter library that is not part of this model.

=== FILE: cache.dfy ===
/** The script's cache: a map from IMDb id to an `{ expires, version,
    data | error }` record, with the expiry sweep `purgeCached` and the
    writer `store` (src/imdb_tomatoes.user.js:134-153, 445-455).  The host's
    key-value storage becomes a map value passed in and returned. */
module Cache {

  import opened Version
  import opened Ratings

  /** The JSON values a stored record's `expires` and `version` fields can
      hold, as far as the script tells them apart. */
  datatype JsValue = JsNumber(n: int) | JsString(s: string) | JsOther

  /** What a record carries besides its stamp. */
  datatype Body = Data(data: RTData) | Error(message: string)

  datatype Record = Record(expires: JsValue, version: JsValue, body: Body)

  /** The stored values, keyed by IMDb id. */
  type Storage = map<string, Record>

  /** Milliseconds in a day and in a week. */
  const OneDay: int := 1000 * 60 * 60 * 24
  const OneWeek: int := OneDay * 7

  /** `date` passed to the sweep by the "clear cache" menu command. */
  const ClearAll: int := -1

  /** A persistent record (`expires === -1`), which never expires. */
  predicate Persistent(r: Record) {
    r.expires == JsNumber(-1)
  }

  /** A record that has not expired by `date`: a numeric expiry at or after
      it, and `date` is not the clear-everything marker. */
  predicate Unexpired(r: Record, date: int) {
    date != ClearAll && r.expires.JsNumber? && date <= r.expires.n
  }

  /** The deletion decision `purgeCached` takes for one record. */
  predicate Purgeable(r: Record, date: int) {
    if Persistent(r) then r.version != JsNumber(SchemaVersion)
    else if r.version != JsString(DataVersion) then true
    else date == ClearAll || !r.expires.JsNumber? || date > r.expires.n
  }

  /** The storage after `purgeCached(date)`. */
  function Purge(cache: Storage, date: int): (kept: Storage)
    ensures kept.Keys <= cache.Keys
    ensures forall k :: k in kept ==> kept[k] == cache[k]
    ensures forall k :: k in cache && Persistent(cache[k]) ==>
              (k in kept <==> cache[k].version == JsNumber(SchemaVersion))
    ensures forall k :: k in cache && !Persistent(cache[k]) && cache[k].version != JsString(DataVersion) ==>
              k !in kept
    ensures forall k :: k in cache && !Persistent(cache[k]) && cache[k].version == JsString(DataVersion) ==>
              (k in kept <==> Unexpired(cache[k], date))
  {
    map k | k in cache && !Purgeable(cache[k], date) :: cache[k]
  }

  /** `purgeCached(date)` as written: walk the keys `GM_listValues` returns,
      read each one's current value, and delete it when it is purgeable. */
  method PurgeCached(cache: Storage, keys: seq<string>, date: int) returns (store: Storage)
    requires forall k :: k in cache <==> k in keys
    requires forall i, j :: 0 <= i < j < |keys| ==> keys[i] != keys[j]
    ensures store.Keys <= cache.Keys
    ensures forall k :: k in store ==> store[k] == cache[k]
    ensures forall k :: k in cache ==> (k in store <==> !Purgeable(cache[k], date))
    ensures store == Purge(cache, date)
  {
    store := cache;
    var n := 0;
    while n < |keys|
      invariant 0 <= n <= |keys|
      invariant store.Keys <= cache.Keys
      invariant forall k :: k in store ==> store[k] == cache[k]
      invariant forall i :: n <= i < |keys| ==> keys[i] in store
      invariant forall i :: 0 <= i < n ==> (keys[i] in store <==> !Purgeable(cache[keys[i]], date))
    {
      var key := keys[n];
      var value := store[key];
      if Purgeable(value, date) {
        store := store - {key};
      }
      n := n + 1;
    }
    assert forall k :: k in cache ==> exists i :: 0 <= i < |keys| && keys[i] == k;
  }

  /** The "clear cache" menu command: `purgeCached(-1)`.  Only persistent
      records of the current schema survive it. */
  function ClearCache(cache: Storage): (kept: Storage)
    ensures kept.Keys <= cache.Keys
    ensures forall k :: k in kept ==> kept[k] == cache[k]
    ensures forall k :: k in cache ==>
              (k in kept <==> Persistent(cache[k]) && cache[k].version == JsNumber(SchemaVersion))
  {
    Purge(cache, ClearAll)
  }

  /** Purging twice with the same date removes nothing more. */
  lemma PurgeIdempotent(cache: Storage, date: int)
    ensures Purge(Purge(cache, date), date) == Purge(cache, date)
  {
  }

  /** A later sweep keeps no more than an earlier one, unless the earlier one
      was the clear-everything call. */
  lemma PurgeMonotone(cache: Storage, early: int, late: int)
    requires early != ClearAll && early <= late
    ensures Purge(cache, late).Keys <= Purge(cache, early).Keys
  {
  }

  /** The record `store` writes: stamped with the current data version and
      `now + ttl` as its expiry. */
  function FreshRecord(now: int, ttl: int, body: Body): (r: Record)
    ensures !Persistent(r) || now + ttl == -1
    ensures r.version == JsString(DataVersion) && r.body == body
    ensures forall date :: date != ClearAll ==> (Unexpired(r, date) <==> date <= now + ttl)
  {
    Record(JsNumber(now + ttl), JsString(DataVersion), body)
  }

  /** `store(dataOrError, ttl)`: writes the one key `imdbId` and nothing else. */
  function Store(cache: Storage, imdbId: string, now: int, ttl: int, body: Body): (r: Storage)
    ensures r.Keys == cache.Keys + {imdbId}
    ensures r[imdbId] == FreshRecord(now, ttl, body)
    ensures forall k :: k in cache && k != imdbId ==> r[k] == cache[k]
  {
    cache[imdbId := FreshRecord(now, ttl, body)]
  }

  /** A record stored at a real time `now` (never the -1 marker) with a
      non-negative ttl survives every sweep up to and including `now + ttl`,
      and no sweep after it. */
  lemma StoredRecordLifetime(cache: Storage, imdbId: string, now: int, ttl: int, body: Body, date: int)
    requires now >= 0 && ttl >= 0 && date != ClearAll
    ensures imdbId in Purge(Store(cache, imdbId, now, ttl, body), date) <==> date <= now + ttl
    ensures imdbId in Purge(Store(cache, imdbId, now, ttl, body), date) ==>
              Purge(Store(cache, imdbId, now, ttl, body), date)[imdbId].body == body
  {
    var r := FreshRecord(now, ttl, body);
    assert !Persistent(r);
  }
}

=== FILE: query.dfy ===
/** Query-string encoding for the API request: `encodeParam` and
    `encodeParams` (src/imdb_tomatoes.user.js:95-112).  The percent-encoding
    itself (`encodeURIComponent`) is a parameter; only the `%20` to `+`
    rewrite and the joining of the pairs are modelled. */
module Query {

  import opened Strings

  /** The request parameters in `Object.entries` order. */
  type Params = seq<(string, string)>

  const EncodedSpace: string := "%20"
  const Plus: string := "+"

  /** `encodeParam(param)`: percent-encode, then write every encoded space as `+`. */
  function EncodeParam(encode: string -> string, param: string): (r: string)
    ensures !Contains(r, EncodedSpace)
    ensures forall i :: 0 <= i < |r| ==> r[i] == '+' || r[i] in encode(param)
    ensures r == encode(param) <==> !Contains(encode(param), EncodedSpace)
    ensures '+' !in encode(param) ==> ReplaceAll(r, Plus, EncodedSpace) == encode(param)
  {
    ReplaceAllRemoves(encode(param), EncodedSpace, Plus);
    ReplaceAllChars(encode(param), EncodedSpace, Plus);
    ReplaceAllChangesIff(encode(param), EncodedSpace, Plus);
    var r := ReplaceAll(encode(param), EncodedSpace, Plus);
    if '+' in encode(param) then r
    else
      ReplaceAllInverse(encode(param), EncodedSpace, '+');
      r
  }

  /** One `key=value` pair. */
  function PairText(encode: string -> string, key: string, value: string): string
  {
    EncodeParam(encode, key) + "=" + EncodeParam(encode, value)
  }

  /** `encodeParams(params)`: the encoded pairs, in order, joined by `&`. */
  function EncodeParams(encode: string -> string, params: Params): string
  {
    Join(seq(|params|, i requires 0 <= i < |params| => PairText(encode, params[i].0, params[i].1)), "&")
  }

  /** How a server reads a query string back: split on `&`, then cut each
      piece at its first `=`. */
  function ParseQuery(query: string): Params
  {
    if query == "" then []
    else
      var pieces := SplitOn(query, '&');
      seq(|pieces|, i requires 0 <= i < |pieces| => Cut(pieces[i], '='))
  }

  /** Text that cannot be confused with the query's own delimiters; true of
      every `encodeURIComponent` output, which escapes both. */
  predicate UrlSafe(t: string) {
    '&' !in t && '=' !in t
  }

  lemma EncodeParamUrlSafe(encode: string -> string, param: string)
    requires UrlSafe(encode(param))
    ensures UrlSafe(EncodeParam(encode, param))
  {
    var r := EncodeParam(encode, param);
    forall i | 0 <= i < |r|
      ensures r[i] != '&' && r[i] != '='
    {
      assert r[i] == '+' || r[i] in encode(param);
    }
  }

  /** The query string holds exactly the encoded pairs, in entry order. */
  lemma EncodeParamsRoundTrip(encode: string -> string, params: Params)
    requires forall i :: 0 <= i < |params| ==> UrlSafe(encode(params[i].0)) && UrlSafe(encode(params[i].1))
    ensures ParseQuery(EncodeParams(encode, params))
            == seq(|params|, i requires 0 <= i < |params| =>
                     (EncodeParam(encode, params[i].0), EncodeParam(encode, params[i].1)))
  {
    var pairs := seq(|params|, i requires 0 <= i < |params| => PairText(encode, params[i].0, params[i].1));
    var expected := seq(|params|, i requires 0 <= i < |params| =>
                          (EncodeParam(encode, params[i].0), EncodeParam(encode, params[i].1)));
    if |params| > 0 {
      forall i | 0 <= i < |params|
        ensures '&' !in pairs[i]
        ensures Cut(pairs[i], '=') == expected[i]
      {
        EncodeParamUrlSafe(encode, params[i].0);
        EncodeParamUrlSafe(encode, params[i].1);
        var key := EncodeParam(encode, params[i].0);
        var value := EncodeParam(encode, params[i].1);
        assert pairs[i] == key + ['='] + value;
        CutFirst(key, '=', value);
      }
      SplitJoin(pairs, '&');
      assert |Join(pairs, "&")| >= |pairs[0]| > 0;
      assert ParseQuery(Join(pairs, "&")) == expected;
    }
  }
}

=== FILE: ratings.dfy ===
/** The normalised Rotten Tomatoes data the script caches and displays, and
    the classification `affixRT` applies to it before rendering
    (src/imdb_tomatoes.user.js:59, 157-170, 222, 243). */
module Ratings {

  import opened Wrappers
  import opened Strings

  /** `{ consensus, rating, url }`: a rating of -1 stands for "no rating". */
  datatype RTData = RTData(consensus: string, rating: int, url: string)

  /** The Tomatometer verdict the widget is coloured by. */
  datatype Status = NotAvailable | Rotten | Fresh

  /** The rating below which a title is Rotten. */
  const FreshThreshold: int := 60

  /** The status chosen at the top of `affixRT`. */
  function StatusOf(rating: int): (s: Status)
    ensures s == NotAvailable <==> rating == -1
    ensures s == Rotten <==> rating != -1 && rating < FreshThreshold
    ensures s == Fresh <==> rating >= FreshThreshold
  {
    if rating == -1 then NotAvailable
    else if rating < FreshThreshold then Rotten
    else Fresh
  }

  /** `STATUS_TO_STYLE`: the CSS class suffix of each status. */
  function StyleOf(s: Status): string
  {
    match s
    case NotAvailable => "tbd"
    case Fresh => "favorable"
    case Rotten => "unfavorable"
  }

  /** The style of a rating names its status, and no two statuses share a style. */
  lemma StyleOfRating(rating: int)
    ensures StyleOf(StatusOf(rating)) == "tbd" <==> rating == -1
    ensures StyleOf(StatusOf(rating)) == "unfavorable" <==> rating != -1 && rating < FreshThreshold
    ensures StyleOf(StatusOf(rating)) == "favorable" <==> rating >= FreshThreshold
    ensures forall s, t :: StyleOf(s) == StyleOf(t) ==> s == t
  {
  }

  /** The two widgets `affixRT` can add: a review-bar item, or a link in the star box. */
  datatype Layout = ReviewBar | StarBox

  /** The score text shown: "N/A" for a missing rating, otherwise the number,
      followed by "%" in the star box. */
  function ScoreText(rating: int, layout: Layout): (text: string)
    ensures text == "N/A" <==> rating == -1
    ensures rating != -1 && layout == ReviewBar ==> ParseInteger(text) == Some(rating)
    ensures rating != -1 && layout == StarBox ==>
              |text| > 1 && text[|text| - 1] == '%' && ParseInteger(text[..|text| - 1]) == Some(rating)
    ensures rating != -1 && layout == ReviewBar ==> text == IntToString(rating)
    ensures rating != -1 && layout == StarBox ==> text == IntToString(rating) + "%"
  {
    if rating == -1 then "N/A"
    else
      match layout
      case ReviewBar => IntToString(rating)
      case StarBox =>
        var digits := IntToString(rating);
        assert (digits + "%")[..|digits|] == digits;
        digits + "%"
  }
}

=== FILE: strings.dfy ===
/** String helpers the script gets from JavaScript itself: decimal rendering of
    numbers (`String(n)`, template literals), global replacement of a literal
    pattern (`s.replace(/--/g, …)`), and `Array.prototype.join`.  Each comes
    with the inverse or reference definition it is proved against. */
module Strings {

  import opened Wrappers

  // ---------------------------------------------------------------------------
  // Decimal digits

  /** A decimal digit, as `\d` matches it in a JavaScript regular expression. */
  predicate IsDigit(c: char) {
    '0' <= c <= '9'
  }

  predicate AllDigits(s: string) {
    forall i :: 0 <= i < |s| ==> IsDigit(s[i])
  }

  function DigitValue(c: char): nat
    requires IsDigit(c)
  {
    c as int - '0' as int
  }

  function DigitChar(d: nat): (c: char)
    requires d < 10
    ensures IsDigit(c) && DigitValue(c) == d
  {
    ('0' as int + d) as char
  }

  /** The number a string of decimal digits denotes, most significant first. */
  function DigitsValue(s: string): nat
    requires AllDigits(s)
  {
    if |s| == 0 then 0 else DigitsValue(s[..|s| - 1]) * 10 + DigitValue(s[|s| - 1])
  }

  /** `String(n)` for a non-negative integer: the shortest decimal rendering,
      with no leading zero. */
  function NatToString(n: nat): (s: string)
    ensures |s| > 0 && AllDigits(s)
    ensures s[0] == '0' <==> n == 0
    ensures |s| > 1 ==> s[0] != '0'
  {
    if n < 10 then [DigitChar(n)] else NatToString(n / 10) + [DigitChar(n % 10)]
  }

  lemma {:induction false} NatToStringRoundTrip(n: nat)
    ensures DigitsValue(NatToString(n)) == n
  {
    if n >= 10 {
      var head := NatToString(n / 10);
      var s := head + [DigitChar(n % 10)];
      assert s[..|s| - 1] == head;
      NatToStringRoundTrip(n / 10);
    } else {
      var s := NatToString(n);
      assert s[..|s| - 1] == [];
    }
  }

  lemma NatToStringInjective(m: nat, n: nat)
    ensures NatToString(m) == NatToString(n) ==> m == n
  {
    NatToStringRoundTrip(m);
    NatToStringRoundTrip(n);
  }

  /** Reads back what `IntToString` writes: an optional minus sign followed by
      at least one digit. */
  function ParseInteger(s: string): Option<int>
  {
    if |s| > 1 && s[0] == '-' && AllDigits(s[1..]) then Some(-(DigitsValue(s[1..]) as int))
    else if |s| > 0 && AllDigits(s) then Some(DigitsValue(s))
    else None
  }

  /** `String(i)` (and `${i}` in a template literal) for an integer. */
  function IntToString(i: int): (s: string)
    ensures |s| > 0 && (s[0] == '-' || IsDigit(s[0]))
    ensures s[0] == '-' <==> i < 0
    ensures s[0] != '-' && |s| > 1 ==> s[0] != '0'
    ensures s[0] == '-' ==> |s| > 1 && s[1] != '0'
    ensures ParseInteger(s) == Some(i)
  {
    if i < 0 then
      var digits := NatToString(-i);
      NatToStringRoundTrip(-i);
      assert ("-" + digits)[1..] == digits;
      "-" + digits
    else
      NatToStringRoundTrip(i);
      NatToString(i)
  }

  // ---------------------------------------------------------------------------
  // Occurrences of a literal pattern and its global replacement

  /** `pat` occurs in `s` starting at index `i`. */
  predicate OccursAt(s: string, pat: string, i: int) {
    0 <= i && i + |pat| <= |s| && s[i..i + |pat|] == pat
  }

  ghost predicate Contains(s: string, pat: string) {
    exists i :: OccursAt(s, pat, i)
  }

  /** No character of `a` appears anywhere in `b`. */
  predicate NoSharedChars(a: string, b: string) {
    forall i, j :: 0 <= i < |a| && 0 <= j < |b| ==> a[i] != b[j]
  }

  /** `s.replace(/pat/g, rep)` for a literal, non-empty pattern: occurrences
      are found left to right and do not overlap. */
  function ReplaceAll(s: string, pat: string, rep: string): string
    requires |pat| > 0
    decreases |s|
  {
    if |s| < |pat| then s
    else if s[..|pat|] == pat then rep + ReplaceAll(s[|pat|..], pat, rep)
    else [s[0]] + ReplaceAll(s[1..], pat, rep)
  }

  /** Every character of the result is copied from `s` or comes from `rep`. */
  lemma {:induction false} ReplaceAllChars(s: string, pat: string, rep: string)
    requires |pat| > 0
    ensures forall i :: 0 <= i < |ReplaceAll(s, pat, rep)| ==>
              ReplaceAll(s, pat, rep)[i] in s || ReplaceAll(s, pat, rep)[i] in rep
    decreases |s|
  {
    if |s| >= |pat| {
      if s[..|pat|] == pat {
        ReplaceAllChars(s[|pat|..], pat, rep);
        var t := ReplaceAll(s[|pat|..], pat, rep);
        forall i | |rep| <= i < |rep| + |t|
          ensures (rep + t)[i] in s || (rep + t)[i] in rep
        {
          assert (rep + t)[i] == t[i - |rep|];
          assert t[i - |rep|] in s[|pat|..] ==> t[i - |rep|] in s;
        }
      } else {
        ReplaceAllChars(s[1..], pat, rep);
        var t := ReplaceAll(s[1..], pat, rep);
        forall i | 1 <= i < 1 + |t|
          ensures ([s[0]] + t)[i] in s || ([s[0]] + t)[i] in rep
        {
          assert ([s[0]] + t)[i] == t[i - 1];
          assert t[i - 1] in s[1..] ==> t[i - 1] in s;
        }
      }
    }
  }

  /** Replacing by something at least as long never shortens the text. */
  lemma {:induction false} ReplaceAllLength(s: string, pat: string, rep: string)
    requires 0 < |pat| <= |rep|
    ensures |ReplaceAll(s, pat, rep)| >= |s|
    decreases |s|
  {
    if |s| >= |pat| {
      if s[..|pat|] == pat {
        ReplaceAllLength(s[|pat|..], pat, rep);
      } else {
        ReplaceAllLength(s[1..], pat, rep);
      }
    }
  }

  /** A prefix `w` of the result either contains a character of `rep`, or was
      copied unchanged from the front of `s`. */
  lemma {:induction false} RepFreePrefix(s: string, pat: string, rep: string, w: string)
    requires 0 < |pat| && 0 < |rep|
    requires |w| <= |ReplaceAll(s, pat, rep)| && ReplaceAll(s, pat, rep)[..|w|] == w
    ensures (exists i, j :: 0 <= i < |w| && 0 <= j < |rep| && w[i] == rep[j])
            || (|w| <= |s| && s[..|w|] == w)
    decreases |s|
  {
    if |w| > 0 && |s| >= |pat| {
      if s[..|pat|] == pat {
        assert w[0] == rep[0];
      } else {
        var t := ReplaceAll(s[1..], pat, rep);
        assert ReplaceAll(s, pat, rep) == [s[0]] + t;
        assert t[..|w| - 1] == w[1..];
        RepFreePrefix(s[1..], pat, rep, w[1..]);
        if exists i, j :: 0 <= i < |w| - 1 && 0 <= j < |rep| && w[1..][i] == rep[j] {
          var i, j :| 0 <= i < |w| - 1 && 0 <= j < |rep| && w[1..][i] == rep[j];
          assert w[i + 1] == rep[j];
        } else {
          assert s[..|w|] == [s[0]] + s[1..][..|w| - 1];
        }
      }
    }
  }

  /** Past a prefix `a`, occurrences in `a + t` are the occurrences in `t`. */
  lemma OccurrenceInSuffix(a: string, t: string, pat: string, i: int)
    requires |a| <= i
    ensures OccursAt(a + t, pat, i) <==> OccursAt(t, pat, i - |a|)
  {
    if i + |pat| <= |a + t| {
      assert (a + t)[i..i + |pat|] == t[i - |a|..i - |a| + |pat|];
    }
  }

  /** Text sharing no character with the pattern, put in front of text
      without it, does not create an occurrence. */
  lemma NoOccurrenceAfterRep(rep: string, t: string, pat: string)
    requires 0 < |pat| && NoSharedChars(pat, rep) && !Contains(t, pat)
    ensures !Contains(rep + t, pat)
  {
    var r := rep + t;
    forall i | 0 <= i
      ensures !OccursAt(r, pat, i)
    {
      if i < |rep| {
        assert r[i] == rep[i];
      } else {
        OccurrenceInSuffix(rep, t, pat, i);
      }
    }
  }

  /** A character copied because the pattern does not start there does not
      create an occurrence in front of a pattern-free replacement. */
  lemma NoOccurrenceAfterCopy(s: string, pat: string, rep: string)
    requires 0 < |pat| && 0 < |rep| && NoSharedChars(pat, rep)
    requires |s| >= |pat| && s[..|pat|] != pat
    requires !Contains(ReplaceAll(s[1..], pat, rep), pat)
    ensures !Contains(ReplaceAll(s, pat, rep), pat)
  {
    var t := ReplaceAll(s[1..], pat, rep);
    var r := ReplaceAll(s, pat, rep);
    assert r == [s[0]] + t;
    if |pat| <= |r| {
      RepFreePrefix(s, pat, rep, r[..|pat|]);
    }
    assert !OccursAt(r, pat, 0);
    forall i | 1 <= i
      ensures !OccursAt(r, pat, i)
    {
      OccurrenceInSuffix([s[0]], t, pat, i);
    }
  }

  /** After a global replacement by text sharing no character with the
      pattern, the pattern no longer occurs. */
  lemma {:induction false} ReplaceAllRemoves(s: string, pat: string, rep: string)
    requires 0 < |pat| && 0 < |rep| && NoSharedChars(pat, rep)
    ensures !Contains(ReplaceAll(s, pat, rep), pat)
    decreases |s|
  {
    if |s| >= |pat| {
      if s[..|pat|] == pat {
        ReplaceAllRemoves(s[|pat|..], pat, rep);
        NoOccurrenceAfterRep(rep, ReplaceAll(s[|pat|..], pat, rep), pat);
      } else {
        ReplaceAllRemoves(s[1..], pat, rep);
        NoOccurrenceAfterCopy(s, pat, rep);
      }
    }
  }

  /** Text without the pattern is left exactly as it was. */
  lemma {:induction false} ReplaceAllIdentity(s: string, pat: string, rep: string)
    requires |pat| > 0 && !Contains(s, pat)
    ensures ReplaceAll(s, pat, rep) == s
    decreases |s|
  {
    if |s| >= |pat| {
      assert !OccursAt(s, pat, 0);
      forall i | 0 <= i
        ensures !OccursAt(s[1..], pat, i)
      {
        if i + |pat| <= |s| - 1 {
          assert s[1..][i..i + |pat|] == s[i + 1..i + 1 + |pat|];
          assert !OccursAt(s, pat, i + 1);
        }
      }
      ReplaceAllIdentity(s[1..], pat, rep);
    }
  }

  /** A character that does not occur in `s` does not occur as a pattern. */
  lemma AbsentCharNotContained(s: string, c: char)
    requires c !in s
    ensures !Contains(s, [c])
  {
    forall i | 0 <= i && i + 1 <= |s|
      ensures !OccursAt(s, [c], i)
    {
      assert s[i..i + 1][0] == s[i];
    }
  }

  /** Replacing by a single character absent from `s` is undone by
      replacing that character back by the pattern. */
  lemma {:induction false} ReplaceAllInverse(s: string, pat: string, c: char)
    requires |pat| > 0 && c !in s
    ensures ReplaceAll(ReplaceAll(s, pat, [c]), [c], pat) == s
    decreases |s|
  {
    if |s| < |pat| {
      AbsentCharNotContained(s, c);
      ReplaceAllIdentity(s, [c], pat);
    } else if s[..|pat|] == pat {
      var rest := s[|pat|..];
      assert c !in rest by {
        assert forall j :: 0 <= j < |rest| ==> rest[j] == s[j + |pat|];
      }
      ReplaceAllInverse(rest, pat, c);
      var t := ReplaceAll(rest, pat, [c]);
      assert ([c] + t)[..1] == [c];
      assert ([c] + t)[1..] == t;
      assert pat + rest == s;
    } else {
      var rest := s[1..];
      assert c !in rest by {
        assert forall j :: 0 <= j < |rest| ==> rest[j] == s[j + 1];
      }
      ReplaceAllInverse(rest, pat, c);
      var t := ReplaceAll(rest, pat, [c]);
      assert s[0] != c;
      assert ([s[0]] + t)[..1] == [s[0]];
      assert ([s[0]] + t)[1..] == t;
      assert [s[0]] + rest == s;
    }
  }

  /** The replacement changes the text exactly when the pattern occurs in it. */
  lemma ReplaceAllChangesIff(s: string, pat: string, rep: string)
    requires 0 < |pat| && 0 < |rep| && NoSharedChars(pat, rep)
    ensures ReplaceAll(s, pat, rep) == s <==> !Contains(s, pat)
  {
    ReplaceAllRemoves(s, pat, rep);
    if !Contains(s, pat) {
      ReplaceAllIdentity(s, pat, rep);
    }
  }

  // ---------------------------------------------------------------------------
  // Joining and splitting

  /** `parts.join(sep)`. */
  function Join(parts: seq<string>, sep: string): string
  {
    if |parts| == 0 then ""
    else if |parts| == 1 then parts[0]
    else parts[0] + sep + Join(parts[1..], sep)
  }

  /** `s.split(c)`: at least one piece, the empty string giving `[""]`. */
  function SplitOn(s: string, c: char): (parts: seq<string>)
    ensures |parts| > 0
    decreases |s|
  {
    if |s| == 0 then [""]
    else
      var rest := SplitOn(s[1..], c);
      if s[0] == c then [""] + rest else [[s[0]] + rest[0]] + rest[1..]
  }

  lemma {:induction false} SplitOnPlain(a: string, c: char)
    requires c !in a
    ensures SplitOn(a, c) == [a]
    decreases |a|
  {
    if |a| > 0 {
      assert a[0] != c;
      SplitOnPlain(a[1..], c);
      assert [a[0]] + a[1..] == a;
    }
  }

  lemma {:induction false} SplitOnFirst(a: string, c: char, b: string)
    requires c !in a
    ensures SplitOn(a + [c] + b, c) == [a] + SplitOn(b, c)
    decreases |a|
  {
    var s := a + [c] + b;
    if |a| == 0 {
      assert s[1..] == b;
    } else {
      assert a[0] != c;
      assert s[1..] == a[1..] + [c] + b;
      SplitOnFirst(a[1..], c, b);
      assert [a[0]] + a[1..] == a;
    }
  }

  /** Splitting on a separator that none of the parts contains recovers the parts. */
  lemma {:induction false} SplitJoin(parts: seq<string>, c: char)
    requires |parts| > 0
    requires forall i :: 0 <= i < |parts| ==> c !in parts[i]
    ensures SplitOn(Join(parts, [c]), c) == parts
    decreases |parts|
  {
    if |parts| == 1 {
      SplitOnPlain(parts[0], c);
    } else {
      SplitJoin(parts[1..], c);
      SplitOnFirst(parts[0], c, Join(parts[1..], [c]));
      assert [parts[0]] + parts[1..] == parts;
    }
  }

  /** Cuts `s` at the first `c`: the text before it and the text after it
      (everything, and nothing, when `c` does not occur). */
  function Cut(s: string, c: char): (string, string)
    decreases |s|
  {
    if |s| == 0 then ("", "")
    else if s[0] == c then ("", s[1..])
    else
      var (before, after) := Cut(s[1..], c);
      ([s[0]] + before, after)
  }

  lemma {:induction false} CutFirst(a: string, c: char, b: string)
    requires c !in a
    ensures Cut(a + [c] + b, c) == (a, b)
    decreases |a|
  {
    var s := a + [c] + b;
    if |a| == 0 {
      assert s[1..] == b;
    } else {
      assert a[0] != c;
      assert s[1..] == a[1..] + [c] + b;
      CutFirst(a[1..], c, b);
      assert [a[0]] + a[1..] == a;
    }
  }
}

=== FILE: tomatoes.dfy ===
/** Turning the rating API's response into the record the script caches:
    `adaptOmdbData` and `getRTData` (src/imdb_tomatoes.user.js:281-373).
    JSON parsing, `parseInt`, `encodeURIComponent` and the fetch and scrape
    of the Rotten Tomatoes page are not modelled; their outcomes are
    parameters. */
module Tomatoes {

  import opened Wrappers
  import opened Strings
  import opened Ratings

  /** A rating as a JSON value: a number, `null`, or missing. */
  datatype RawRating = RatingNumber(value: int) | RatingNull | RatingUndefined

  /** One API result, or an adapted fallback record:
      `{ imdbID, RTConsensus, CriticRating, RTUrl }`. */
  datatype Movie = Movie(imdbId: Option<string>, consensus: Option<string>, rating: RawRating, url: Option<string>)

  /** An entry of an OMDb record's `Ratings` array. */
  datatype OmdbRating = OmdbRating(source: string, value: Option<string>, tomatoConsensus: Option<string>)

  /** A record of the OMDb fallback data: `{ Ratings, tomatoURL }`. */
  datatype OmdbRecord = OmdbRecord(ratings: Option<seq<OmdbRating>>, tomatoUrl: Option<string>)

  /** The API response after `JSON.parse(JSON.parse(response))`. */
  datatype Response = Unparseable(reason: string) | Parsed(top: Top)

  /** What the parsed response turned out to be: a falsy value, some other
      non-array value (named by its `{}.toString` tag), or the result array. */
  datatype Top = Falsy | NotArray(typeTag: string) | Results(movies: seq<Movie>)

  /** What fetching and scraping the Rotten Tomatoes page yields: a failure
      (the fetch was rejected, or the page's JSON-LD was missing or broken),
      or the trimmed consensus, when the page has one, and the page's
      aggregate rating. */
  datatype Page = PageFailed(message: string) | PageScraped(consensus: Option<string>, rating: RawRating)

  /** `{ data, updated }`: the normalised data, and whether the page changed the rating. */
  datatype Fetched = Fetched(data: RTData, updated: bool)

  const RottenTomatoes: string := "Rotten Tomatoes"
  const NoConsensus: string := "No consensus yet."
  const SearchPrefix: string := "https://www.rottentomatoes.com/search/?search="
  const Dashes: string := "--"
  const EmDash: string := "&#8212;"

  /** JavaScript truthiness of an optional string. */
  predicate Truthy(s: Option<string>) {
    s.Some? && s.value != ""
  }

  /** The message of the error `fail(msg)` throws. */
  function QueryError(imdbId: string, msg: string): string
  {
    "error querying data for " + imdbId + ": " + msg
  }

  /** `xs.find(p)`, returning the index of the element found. */
  function FindFirst<T>(xs: seq<T>, p: T -> bool): (r: Option<nat>)
    ensures r.Some? ==> r.value < |xs| && p(xs[r.value])
    ensures r.Some? ==> forall j :: 0 <= j < r.value ==> !p(xs[j])
    ensures r.None? ==> forall j :: 0 <= j < |xs| ==> !p(xs[j])
  {
    if |xs| == 0 then None
    else if p(xs[0]) then Some(0)
    else
      match FindFirst(xs[1..], p)
      case None => None
      case Some(i) => Some(i + 1)
  }

  // ---------------------------------------------------------------------------
  // adaptOmdbData

  /** `data.Ratings || []`. */
  function Entries(data: OmdbRecord): seq<OmdbRating>
  {
    data.ratings.GetOr([])
  }

  predicate IsRottenTomatoes(entry: OmdbRating) {
    entry.source == RottenTomatoes
  }

  /** `i` is the first Rotten Tomatoes entry of `xs`. */
  predicate FirstRottenTomatoes(xs: seq<OmdbRating>, i: int) {
    0 <= i < |xs| && IsRottenTomatoes(xs[i]) && forall j :: 0 <= j < i ==> !IsRottenTomatoes(xs[j])
  }

  /** `CriticRating`: the integer `parseInt` reads from a non-empty `Value`,
      otherwise `null`. */
  function CriticRating(value: Option<string>, parseInt: string -> Option<int>): RawRating
  {
    if Truthy(value) && parseInt(value.value).Some? then RatingNumber(parseInt(value.value).value)
    else RatingNull
  }

  /** `adaptOmdbData(data)`: the fallback record in the API's result shape. */
  function AdaptOmdbData(data: OmdbRecord, parseInt: string -> Option<int>): (m: Movie)
    ensures m.imdbId == None && m.url == data.tomatoUrl
    ensures m.rating != RatingUndefined
    ensures forall i :: FirstRottenTomatoes(Entries(data), i) ==>
              m.rating == CriticRating(Entries(data)[i].value, parseInt) &&
              m.consensus == Entries(data)[i].tomatoConsensus
    ensures (forall i :: 0 <= i < |Entries(data)| ==> !IsRottenTomatoes(Entries(data)[i])) ==>
              m.rating == RatingNull && m.consensus == None
  {
    var entries := Entries(data);
    var entry :=
      match FindFirst(entries, IsRottenTomatoes)
      case Some(i) => entries[i]
      case None => OmdbRating("", None, None);
    Movie(None, entry.tomatoConsensus, CriticRating(entry.value, parseInt), data.tomatoUrl)
  }

  // ---------------------------------------------------------------------------
  // getRTData

  predicate Matches(imdbId: string, m: Movie) {
    m.imdbId == Some(imdbId)
  }

  /** The movie `getRTData` goes on with: the first result with the requested
      id, else the adapted fallback, else the "no results found" error. */
  function SelectMovie(top: Top, imdbId: string, fallback: Option<OmdbRecord>,
                       parseInt: string -> Option<int>): (r: Result<Movie, string>)
    ensures top.Falsy? ==> r == Failure(QueryError(imdbId, "no response"))
    ensures top.NotArray? ==> r == Failure(QueryError(imdbId, "invalid response: " + top.typeTag))
    ensures top.Results? && r.Success? && Matches(imdbId, r.value) ==>
              exists i :: 0 <= i < |top.movies| && top.movies[i] == r.value &&
                forall j :: 0 <= j < i ==> !Matches(imdbId, top.movies[j])
    ensures top.Results? && (exists i :: 0 <= i < |top.movies| && Matches(imdbId, top.movies[i])) ==>
              r.Success? && Matches(imdbId, r.value)
    ensures top.Results? && (forall i :: 0 <= i < |top.movies| ==> !Matches(imdbId, top.movies[i])) ==>
              r == (if fallback.Some? then Success(AdaptOmdbData(fallback.value, parseInt))
                    else Failure(QueryError(imdbId, "no results found")))
  {
    match top
    case Falsy => Failure(QueryError(imdbId, "no response"))
    case NotArray(tag) => Failure(QueryError(imdbId, "invalid response: " + tag))
    case Results(movies) =>
      match FindFirst(movies, m => Matches(imdbId, m))
      case Some(i) => Success(movies[i])
      case None =>
        if fallback.Some? then Success(AdaptOmdbData(fallback.value, parseInt))
        else Failure(QueryError(imdbId, "no results found"))
  }

  /** A missing rating (`null` or `undefined`) becomes -1. */
  function NormaliseRating(raw: RawRating): (rating: int)
    ensures raw.RatingNumber? ==> rating == raw.value
    ensures !raw.RatingNumber? ==> rating == -1
  {
    match raw
    case RatingNumber(n) => n
    case _ => -1
  }

  /** A missing or empty consensus becomes "No consensus yet.", and every
      `--` in a present one becomes an em-dash entity. */
  function NormaliseConsensus(consensus: Option<string>): (text: string)
    ensures text != "" && !Contains(text, Dashes)
    ensures !Truthy(consensus) ==> text == NoConsensus
    ensures Truthy(consensus) && !Contains(consensus.value, Dashes) ==> text == consensus.value
    ensures Truthy(consensus) ==> text == ReplaceAll(consensus.value, Dashes, EmDash)
  {
    if Truthy(consensus) then
      ReplaceAllLength(consensus.value, Dashes, EmDash);
      ReplaceAllRemoves(consensus.value, Dashes, EmDash);
      ReplaceAllChangesIff(consensus.value, Dashes, EmDash);
      ReplaceAll(consensus.value, Dashes, EmDash)
    else
      assert forall i :: 0 <= i < |NoConsensus| ==> NoConsensus[i] != '-';
      assert forall i :: OccursAt(NoConsensus, Dashes, i) ==> NoConsensus[i] == '-';
      NoConsensus
  }

  /** The rest of `getRTData` once a movie is chosen: refresh the consensus
      and rating from the Rotten Tomatoes page when the movie has a URL,
      otherwise link to a search for the title, then normalise. */
  function Finish(movie: Movie, title: string, page: Page, encode: string -> string): (r: Result<Fetched, string>)
    ensures r.Failure? <==> Truthy(movie.url) && page.PageFailed?
    ensures r.Failure? ==> r.error == page.message
    ensures r.Success? ==> (r.value.updated <==> Truthy(movie.url) && page.PageScraped? && page.rating != movie.rating)
    ensures r.Success? && Truthy(movie.url) ==>
              r.value.data.url == movie.url.value &&
              r.value.data.rating == NormaliseRating(page.rating) &&
              r.value.data.consensus == NormaliseConsensus(if page.consensus.Some? then page.consensus else movie.consensus)
    ensures r.Success? && !Truthy(movie.url) ==>
              r.value.data == RTData(NormaliseConsensus(movie.consensus), NormaliseRating(movie.rating),
                                     SearchPrefix + encode(title))
  {
    if Truthy(movie.url) then
      match page
      case PageFailed(msg) => Failure(msg)
      case PageScraped(scraped, newRating) =>
        var consensus := if scraped.Some? then scraped else movie.consensus;
        var updated := newRating != movie.rating;
        var rating := if updated then newRating else movie.rating;
        Success(Fetched(RTData(NormaliseConsensus(consensus), NormaliseRating(rating), movie.url.value), updated))
    else
      Success(Fetched(RTData(NormaliseConsensus(movie.consensus), NormaliseRating(movie.rating),
                             SearchPrefix + encode(title)), false))
  }

  /** `getRTData({ response, imdbId, title, fallback })`: the normalised data
      and its `updated` flag, or the message of the error it throws. */
  function GetRTData(response: Response, imdbId: string, title: string, fallback: Option<OmdbRecord>,
                     page: Page, parseInt: string -> Option<int>, encode: string -> string): (r: Result<Fetched, string>)
    ensures response.Unparseable? ==> r == Failure(QueryError(imdbId, "can't parse response: " + response.reason))
    ensures response.Parsed? && !response.top.Results? ==> r.Failure?
    ensures response.Parsed? && response.top.Results? && fallback.None? &&
            (forall i :: 0 <= i < |response.top.movies| ==> !Matches(imdbId, response.top.movies[i])) ==>
              r == Failure(QueryError(imdbId, "no results found"))
    ensures r.Success? ==> r.value.data.consensus != "" && !Contains(r.value.data.consensus, Dashes)
  {
    match response
    case Unparseable(reason) => Failure(QueryError(imdbId, "can't parse response: " + reason))
    case Parsed(top) =>
      match SelectMovie(top, imdbId, fallback, parseInt)
      case Failure(msg) => Failure(msg)
      case Success(movie) => Finish(movie, title, page, encode)
  }

  /** When some result has the requested id, the first such result is the
      one `getRTData` reports on. */
  lemma GetRTDataUsesFirstMatch(movies: seq<Movie>, imdbId: string, title: string, fallback: Option<OmdbRecord>,
                                page: Page, parseInt: string -> Option<int>, encode: string -> string, i: nat)
    requires i < |movies| && Matches(imdbId, movies[i])
    requires forall j :: 0 <= j < i ==> !Matches(imdbId, movies[j])
    ensures GetRTData(Parsed(Results(movies)), imdbId, title, fallback, page, parseInt, encode)
            == Finish(movies[i], title, page, encode)
  {
    var r := SelectMovie(Results(movies), imdbId, fallback, parseInt);
    assert r.Success? && Matches(imdbId, r.value);
    var k :| 0 <= k < |movies| && movies[k] == r.value && forall j :: 0 <= j < k ==> !Matches(imdbId, movies[j]);
    assert k == i;
  }

  /** With no result for the id, the fallback record, adapted, stands in. */
  lemma GetRTDataFallsBack(movies: seq<Movie>, imdbId: string, title: string, fallback: OmdbRecord,
                           page: Page, parseInt: string -> Option<int>, encode: string -> string)
    requires forall j :: 0 <= j < |movies| ==> !Matches(imdbId, movies[j])
    ensures GetRTData(Parsed(Results(movies)), imdbId, title, Some(fallback), page, parseInt, encode)
            == Finish(AdaptOmdbData(fallback, parseInt), title, page, encode)
  {
  }
}

=== FILE: version.dfy ===
/** The version tag stamped on every cached record: the schema version, a
    slash, and the script's version with a trailing `.<digits>` removed
    (src/imdb_tomatoes.user.js:68-76).  For three-part
    `<major>.<minor>.<patch>` versions, a patch release keeps the cache and
    any other release or schema change invalidates it; a two-part version
    loses its minor number instead. */
module Version {

  import opened Strings

  /** The schema of the cached records; a number, not a string. */
  const SchemaVersion: nat := 4

  /** The `@version` of the script header. */
  const ScriptVersion: string := "2.15.3"

  /** How many decimal digits end `v`. */
  function TrailingDigits(v: string): (k: nat)
    ensures k <= |v|
    ensures AllDigits(v[|v| - k..])
    ensures k < |v| ==> !IsDigit(v[|v| - k - 1])
  {
    if |v| == 0 || !IsDigit(v[|v| - 1]) then 0
    else
      var k := 1 + TrailingDigits(v[..|v| - 1]);
      assert v[|v| - k..] == v[..|v| - 1][|v| - k..] + [v[|v| - 1]];
      k
  }

  /** The regular expression `\.\d+$` matches `v` at index `i`: a dot there,
      followed by one or more digits up to the end. */
  predicate PatchAt(v: string, i: int) {
    0 <= i < |v| - 1 && v[i] == '.' && AllDigits(v[i + 1..])
  }

  /** `v.replace(/\.\d+$/, '')`. */
  function StripPatch(v: string): string
  {
    var k := TrailingDigits(v);
    if 0 < k < |v| && v[|v| - k - 1] == '.' then v[..|v| - k - 1] else v
  }

  /** The replacement removes exactly the text the regular expression
      matches, and leaves a version it does not match alone. */
  lemma StripPatchMatchesRegex(v: string)
    ensures forall i :: PatchAt(v, i) ==> StripPatch(v) == v[..i]
    ensures (forall i :: !PatchAt(v, i)) ==> StripPatch(v) == v
  {
    var k := TrailingDigits(v);
    forall i | PatchAt(v, i)
      ensures i == |v| - k - 1
    {
      assert !IsDigit(v[i]);
      assert forall j :: i + 1 <= j < |v| ==> v[j] == v[i + 1..][j - i - 1];
    }
    if 0 < k < |v| && v[|v| - k - 1] == '.' {
      assert v[|v| - k - 1 + 1..] == v[|v| - k..];
      assert PatchAt(v, |v| - k - 1);
    }
  }

  /** A version ending in `.<digits>` loses exactly that suffix. */
  lemma StripPatchOfRelease(prefix: string, patch: string)
    requires |patch| > 0 && AllDigits(patch)
    ensures StripPatch(prefix + "." + patch) == prefix
  {
    var v := prefix + "." + patch;
    assert v[|prefix| + 1..] == patch;
    assert PatchAt(v, |prefix|);
    StripPatchMatchesRegex(v);
    assert v[..|prefix|] == prefix;
  }

  /** `SCHEMA_VERSION + '/' + SCRIPT_VERSION.replace(/\.\d+$/, '')`. */
  function VersionTag(schema: nat, script: string): string
  {
    NatToString(schema) + "/" + StripPatch(script)
  }

  /** `DATA_VERSION`. */
  const DataVersion: string := VersionTag(SchemaVersion, ScriptVersion)

  lemma DataVersionValue()
    ensures DataVersion == "4/2.15"
  {
    StripPatchOfRelease("2.15", "3");
    assert "2.15" + "." + "3" == ScriptVersion;
    assert NatToString(4) == "4";
  }

  /** Two releases differing only in the patch number share a tag. */
  lemma PatchReleasesShareTag(schema: nat, release: string, p: string, q: string)
    requires |p| > 0 && AllDigits(p) && |q| > 0 && AllDigits(q)
    ensures VersionTag(schema, release + "." + p) == VersionTag(schema, release + "." + q)
    ensures VersionTag(schema, release + "." + p) == NatToString(schema) + "/" + release
  {
    StripPatchOfRelease(release, p);
    StripPatchOfRelease(release, q);
  }

  /** Releases with different `<major>.<minor>` parts get different tags. */
  lemma MinorReleasesDiffer(schema: nat, a: string, b: string, p: string, q: string)
    requires |p| > 0 && AllDigits(p) && |q| > 0 && AllDigits(q)
    requires a != b
    ensures VersionTag(schema, a + "." + p) != VersionTag(schema, b + "." + q)
  {
    StripPatchOfRelease(a, p);
    StripPatchOfRelease(b, q);
    var n := NatToString(schema) + "/";
    assert (n + a)[|n|..] == a;
    assert (n + b)[|n|..] == b;
  }

  /** The regex needs no third part: on a two-part version it strips the
      minor number, so two-part releases differing in the minor share a tag. */
  lemma TwoPartVersionsLoseMinor()
    ensures VersionTag(SchemaVersion, "2.16") == VersionTag(SchemaVersion, "2.17") == "4/2"
  {
    StripPatchOfRelease("2", "16");
    StripPatchOfRelease("2", "17");
    assert "2" + "." + "16" == "2.16";
    assert "2" + "." + "17" == "2.17";
    assert NatToString(4) == "4";
  }

  /** The schema version can be read back from a tag: tags of different
      schemas never collide, whatever the script versions. */
  lemma SchemaChangeChangesTag(s1: nat, v1: string, s2: nat, v2: string)
    ensures VersionTag(s1, v1) == VersionTag(s2, v2) ==> s1 == s2
  {
    var n1 := NatToString(s1);
    var n2 := NatToString(s2);
    var t1 := VersionTag(s1, v1);
    var t2 := VersionTag(s2, v2);
    if t1 == t2 {
      assert t1[|n1|] == '/';
      assert t2[|n2|] == '/';
      assert forall j :: 0 <= j < |n1| ==> t1[j] == n1[j];
      assert forall j :: 0 <= j < |n2| ==> t2[j] == n2[j];
      assert |n1| == |n2|;
      assert t1[..|n1|] == n1;
      assert t2[..|n2|] == n2;
      NatToStringInjective(s1, s2);
    }
  }
}

=== FILE: visit.dfy ===
/** The cache bookkeeping of `main` for one title page
    (src/imdb_tomatoes.user.js:422-489): sweep the cache, serve a cached
    record when one survives, otherwise query, store the outcome with a
    one-day or one-week lifetime, and show it.  The query's outcome (the
    result of `getRTData`, or the message of the error it or the fetch threw)
    is a parameter, as is the clock reading `NOW`. */
module Visit {

  import opened Wrappers
  import opened Ratings
  import opened Cache
  import opened Tomatoes

  /** What the page ends up showing. */
  datatype Display =
    | CachedError(message: string)    // a cached error, logged
    | CachedRating(data: RTData)      // a cached rating, rendered by affixRT
    | CachedUnreadable                // a cached error with an empty message: no data to render
    | FetchedRating(data: RTData)     // a freshly fetched rating
    | FetchedError(message: string)   // a fresh failure, logged

  /** The lifetime of a new record: one day for an error or a rating the
      Rotten Tomatoes page updated, one week otherwise. */
  function Ttl(outcome: Result<Fetched, string>): (ttl: int)
    ensures ttl == OneDay <==> outcome.Failure? || outcome.value.updated
    ensures ttl == OneWeek <==> outcome.Success? && !outcome.value.updated
    ensures ttl > 0
  {
    match outcome
    case Success(fetched) => if fetched.updated then OneDay else OneWeek
    case Failure(_) => OneDay
  }

  /** `{ data }` or `{ error: message }`. */
  function BodyOf(outcome: Result<Fetched, string>): Body
  {
    match outcome
    case Success(fetched) => Data(fetched.data)
    case Failure(message) => Error(message)
  }

  /** What a surviving cached record shows: its error when the message is
      truthy, otherwise its data.  An empty error message has no data to
      render, and is shown as nothing. */
  function ShowCached(r: Record): (d: Display)
    ensures d.CachedError? <==> r.body.Error? && r.body.message != ""
    ensures d.CachedError? ==> d.message == r.body.message
    ensures d.CachedRating? <==> r.body.Data?
    ensures d.CachedRating? ==> d.data == r.body.data
    ensures d == CachedUnreadable <==> r.body == Error("")
    ensures !d.FetchedRating? && !d.FetchedError?
  {
    match r.body
    case Error(message) => if message != "" then CachedError(message) else CachedUnreadable
    case Data(data) => CachedRating(data)
  }

  /** The storage and display after one visit to the page of `imdbId` at time `now`. */
  function Visit(cache: Storage, now: int, imdbId: string, outcome: Result<Fetched, string>): (r: (Storage, Display))
    ensures imdbId in r.0
    ensures r.0.Keys <= cache.Keys + {imdbId}
    ensures forall k :: k != imdbId ==> (k in r.0 <==> k in cache && !Purgeable(cache[k], now))
    ensures forall k :: k in r.0 && k != imdbId ==> r.0[k] == cache[k]
    ensures imdbId in cache && !Purgeable(cache[imdbId], now) ==>
              r.0[imdbId] == cache[imdbId] && r.1 == ShowCached(cache[imdbId])
    ensures !(imdbId in cache && !Purgeable(cache[imdbId], now)) ==>
              r.0[imdbId] == FreshRecord(now, Ttl(outcome), BodyOf(outcome)) &&
              r.1 == (if outcome.Success? then FetchedRating(outcome.value.data) else FetchedError(outcome.error))
  {
    var purged := Purge(cache, now);
    if imdbId in purged then
      (purged, ShowCached(purged[imdbId]))
    else
      var stored := Store(purged, imdbId, now, Ttl(outcome), BodyOf(outcome));
      match outcome
      case Success(fetched) => (stored, FetchedRating(fetched.data))
      case Failure(message) => (stored, FetchedError(message))
  }

  /** A freshly stored outcome is served from the cache, without a new query,
      at every visit up to its expiry. */
  lemma StoredOutcomeIsServed(cache: Storage, now: int, imdbId: string, outcome: Result<Fetched, string>,
                              later: int, next: Result<Fetched, string>)
    requires now >= 0 && !(imdbId in cache && !Purgeable(cache[imdbId], now))
    requires now <= later <= now + Ttl(outcome)
    ensures Visit(Visit(cache, now, imdbId, outcome).0, later, imdbId, next)
            == (Purge(Visit(cache, now, imdbId, outcome).0, later),
                ShowCached(FreshRecord(now, Ttl(outcome), BodyOf(outcome))))
    ensures outcome.Success? ==>
              Visit(Visit(cache, now, imdbId, outcome).0, later, imdbId, next).1 == CachedRating(outcome.value.data)
    ensures outcome.Failure? && outcome.error != "" ==>
              Visit(Visit(cache, now, imdbId, outcome).0, later, imdbId, next).1 == CachedError(outcome.error)
  {
    var stored := Visit(cache, now, imdbId, outcome).0;
    var r := stored[imdbId];
    assert r == FreshRecord(now, Ttl(outcome), BodyOf(outcome));
    assert !Persistent(r) && Unexpired(r, later);
    assert !Purgeable(r, later);
  }

  /** Once its lifetime is over, the stored outcome is swept and the page
      queries again, storing the new outcome. */
  lemma ExpiredOutcomeIsRefetched(cache: Storage, now: int, imdbId: string, outcome: Result<Fetched, string>,
                                  later: int, next: Result<Fetched, string>)
    requires now >= 0 && !(imdbId in cache && !Purgeable(cache[imdbId], now))
    requires later > now + Ttl(outcome)
    ensures Visit(Visit(cache, now, imdbId, outcome).0, later, imdbId, next).0[imdbId]
            == FreshRecord(later, Ttl(next), BodyOf(next))
  {
    var stored := Visit(cache, now, imdbId, outcome).0;
    var r := stored[imdbId];
    assert r == FreshRecord(now, Ttl(outcome), BodyOf(outcome));
    assert Purgeable(r, later);
  }
}

=== FILE: wrappers.dfy ===
/** Optional values and results: JavaScript's `undefined`/`null` become `None`,
    and a thrown `Error` becomes a `Failure` carrying its message. */
module Wrappers {

  datatype Option<+T> = None | Some(value: T) {

    /** The wrapped value, or `default` when there is none. */
    function GetOr(default: T): T {
      match this
      case Some(v) => v
      case None => default
    }
  }

  datatype Result<+T, +E> = Success(value: T) | Failure(error: E)
}
